=== FILE: README.md ===
# parrot-bot in Dafny

A model of the core of parrot-bot (`parrot.js`), a Discord bot that reads the chat
messages of users who switched text to speech on aloud in their voice channel, one at a time.

The model has three parts:

- The **playback scheduler**: the process-wide FIFO `queuedMessages`, the `busy` flag and
  `currentStreamDispatcher`. These become the immutable `Scheduler.State`. Admission, `!stop`,
  `!clear`, the start of a playback, its end, its three failure paths and the
  `processMessageQueue` drain are pure transitions. Each transition returns the new state and
  the effects it requests: speak a message, end a dispatcher, leave the voice channel.
- The **user table** (`Users` rows `id, language, voice, tts_enabled`), modelled as a
  `map`. Get-or-create, the `!tts` toggle, `!random`, `!voice <name>` and the `maybeLeaveVoice`
  decision are modelled over it.
- The **voice catalog** filter `getValidVoices` and the **command parsing** of
  `processMessage`: a `!` prefix, words split on spaces, and `!voice <name>` split on
  `"!voice "`.

`Bot.Step` ties these together. It maps one event to the bot's reaction. The events are a
received message, or a playback that started, ended or failed. `Bot.Run` applies a sequence
of events in order.

Every external call is replaced by its outcome:

- Discord, Google text to speech, the file system and sqlite;
- the set of users currently in a voice channel (`present`);
- the voice catalog returned by `listVoices`;
- the random draws of `Math.random()`, given as a `pick: nat` that selects `pick % n`.

The JavaScript string operations the code relies on are modelled in `Text`:

- `split` with a string separator, scanning left to right for non-overlapping occurrences;
- `includes`;
- `join`.

JavaScript truthiness is modelled too: an empty option string counts as not given.

`parrot.js` has one process-wide scheduler, no timers and no cache, and its leave decision
is global over the user table; the model has the same shape. Only the dispatcher's `"end"`
handler (lines 268-274) resets `currentStreamDispatcher`: the join, synthesis and write
failure paths (lines 241-246, 257-262 and 277-282) only reset `busy`, and `Scheduler.Failed`
keeps the dispatcher accordingly.

## Model

| member | source | states |
|---|---|---|
| Text.Contains | parrot.js:51 | `includes` holds exactly when the substring occurs at some position |
| Text.JoinSplit | parrot.js:152 | joining the pieces of a split with the separator gives back the original string |
| Text.SplitJoinChar | parrot.js:152 | splitting on a one-character separator recovers any pieces that avoid it |
| Text.SplitBeforeSeparator | parrot.js:184 | splitting on a separator whose first character does not recur in it gives, as first piece, the text before its first occurrence |
| Text.SplitFirstPiece | parrot.js:152-153 | the first piece of a split on a character is the text before its first occurrence |
| Text.SplitCountsOccurrence | parrot.js:184-185 | a split has more than one piece exactly when the separator occurs |
| Voices.PrimaryLanguage | parrot.js:81 | the stored language is a code the voice lists, and is absent (`undefined`) exactly when it lists none |
| Voices.KeepLanguageIsMatching | parrot.js:42-47 | the language stage keeps exactly the voices listing the code, in catalog order |
| Voices.KeepTypeAfterMatching | parrot.js:48-53 | the type stage applied to the output of the first stage filters by both conditions at once |
| Voices.ValidVoicesIsMatching | parrot.js:36-60 | the two-stage filter equals one pass with the combined condition, for every combination of given and absent options |
| Voices.MatchingSound | parrot.js:44-52 | the filtered list holds exactly the catalog voices satisfying the options, as an order-preserving subsequence |
| Voices.ValidVoicesSpec | parrot.js:36-60 | with no options the catalog is returned unchanged; otherwise the result is an order-preserving subsequence holding exactly the voices speaking the code and whose name contains the type |
| Voices.FilterIdempotent | parrot.js:36-60 | filtering twice with the same options gives the same list as filtering once |
| Voices.FirstNamed | parrot.js:187-200 | the index found holds a voice with exactly that name and no earlier voice has it; none is found only when no voice has the name |
| Voices.ScanForName | parrot.js:187-200 | the `for` loop returns at the first voice whose name equals the argument, or finds none |
| Users.Pick | parrot.js:80 | the random draw is an element of the list, and every position can be drawn |
| Users.Draw | parrot.js:79-81 | a voice is drawn exactly when some catalog voice satisfies the options, and the drawn voice does |
| Users.GetOrCreate | parrot.js:71-92 | an existing row is returned and nothing changes; a new row is exactly the row built from one American English WaveNet voice (its name and its first language code) under the user's id, with text to speech disabled; there is no row when no such voice exists |
| Users.ToggleTts | parrot.js:106-116 | the flag is negated and reported; a newly created user's row is built from one American English WaveNet voice and ends up enabled; no other row changes |
| Users.ToggleTwice | parrot.js:106-116 | toggling an existing user twice restores the table exactly |
| Users.Randomize | parrot.js:118-131 | the chosen voice satisfies the options and becomes the user's voice and language; an existing user gets a voice exactly when one satisfies the options, and otherwise the table is unchanged; a new user gets a voice exactly when both a new-user voice and a voice satisfying the options exist, and keeps text to speech disabled; the flag is never changed |
| Users.RandomizeFrame | parrot.js:119-123 | `!random` changes no row other than the caller's |
| Users.RandomizeKeepsRow | parrot.js:123 | an existing row keeps its id and flag and only its voice and language change |
| Users.RandomizeWellKeyed | parrot.js:24 | every row stays stored under its own id |
| Users.SetVoiceNamed | parrot.js:184-202 | a voice is found exactly when the catalog has one with that name, and it is the first such voice; the author's row, if it exists, takes that voice and its language; with no such voice or no row the table is unchanged |
| Users.ShouldLeave | parrot.js:288-299 | the bot leaves exactly when no row of the whole table has text to speech enabled |
| Users.ToggleDecidesLeave | parrot.js:159-163 | whoever switches text to speech on keeps the bot in voice, and switching off the last enabled user makes it leave |
| Commands.Parse | parrot.js:151-157 | a message is a command exactly when it starts with `!`; a plain message is kept whole; command names and arguments contain no space |
| Commands.RenderParse | parrot.js:151-157 | the `!`, the name and the arguments joined by spaces give back the message: parsing loses nothing |
| Commands.ParseRender | parrot.js:151-157 | a command whose name and arguments avoid spaces parses back to itself |
| Commands.ParseWord | parrot.js:151-158 | `!` followed by one word is that command with no arguments |
| Commands.ParseVoice | parrot.js:183 | any message starting with `!voice ` reaches the `voice` case |
| Commands.VoiceArgument | parrot.js:184-185 | the `!voice` command has an argument exactly when the text `!voice ` occurs in the message |
| Commands.VoiceArgumentOfName | parrot.js:184-189 | `!voice <name>` asks for exactly `<name>` |
| Commands.VoiceArgumentFirstTwo | parrot.js:184-185 | when `!voice ` occurs a second time, the argument is the text between the first two occurrences |
| Commands.BareVoiceHasNoArgument | parrot.js:184-185 | a bare `!voice` is the `voice` command and has no argument |
| Scheduler.Admit | parrot.js:225-232 | a message from a user who is not in voice or has no enabled row changes nothing; while busy it is appended to the tail and nothing else changes; otherwise the scheduler becomes busy, the queue is untouched and the message is spoken |
| Scheduler.EndCurrent | parrot.js:166-168 | a dispatcher is ended exactly when there is one |
| Scheduler.Stop | parrot.js:165-169 | `!stop` leaves the state unchanged and only ends the current dispatcher, if any |
| Scheduler.Clear | parrot.js:170-177 | `!clear` empties the queue, keeps `busy` and the dispatcher, and ends the current dispatcher, if any |
| Scheduler.Started | parrot.js:264-267 | the new dispatcher is installed, and the previous one, if any, is ended |
| Scheduler.StartedTwice | parrot.js:264-267 | starting a second playback ends exactly the first handle and installs the second |
| Scheduler.FirstEligible | parrot.js:301-308 | the position of the first queued message that would be spoken, or none when no queued message would be |
| Scheduler.Drain | parrot.js:301-308 | on an empty queue nothing happens; idle, it drops the ineligible messages in front, speaks the first eligible one and keeps everything behind it in order, or ends idle with an empty queue; busy, it moves the head to the tail or drops it |
| Scheduler.Ended | parrot.js:268-274 | the end of a playback clears the dispatcher and drains: with no eligible queued message the bot ends idle with an empty queue and leaves exactly when nobody has text to speech enabled; otherwise it is busy speaking the first eligible queued message, only the messages behind it stay queued, and it does not leave |
| Scheduler.Failed | parrot.js:241-246 | a failed join, synthesis or write (also lines 257-262 and 277-282) keeps the dispatcher, never re-queues the failed message and drains: with no eligible queued message it ends idle with an empty queue and leaves exactly when nobody has text to speech enabled; otherwise it is busy speaking the first eligible queued message and only the messages behind it stay queued |
| Scheduler.EligibleKeepsVoice | parrot.js:293 | when some queued message would be spoken, its author has text to speech enabled, so the bot does not leave |
| Scheduler.DrainKeepsSuffix | parrot.js:301-308 | draining an idle scheduler leaves a suffix of the queue, speaks only eligible messages, and empties the queue when it ends idle |
| Scheduler.CompletionSpeaksOrLeaves | parrot.js:272-273 | a completion never both starts the next message and leaves the channel |
| Scheduler.ClearThenEnded | parrot.js:170-177 | clearing and then receiving the end of the cancelled playback leaves the scheduler idle, empty and without a dispatcher |
| Scheduler.StopThenEnded | parrot.js:165-169 | after `!stop` the end of the playback starts the first eligible queued message and keeps the rest of the queue in order |
| Bot.StartInvariant | parrot.js:16-19 | the start-up globals satisfy the invariant |
| Bot.StepPreservesInvariant | parrot.js:149-232 | every event keeps the invariant: only plain messages are queued, a non-empty queue implies busy, and every row is stored under its own id |
| Bot.CommandPreservesInvariant | parrot.js:158-224 | every case of the command `switch` keeps the invariant |
| Bot.RunPreservesInvariant | parrot.js:30-32 | any sequence of events from an invariant state keeps the invariant |
| Bot.StepQueueDiscipline | parrot.js:226-232 | every event either removes messages from the head of the queue only, or appends the one eligible message that arrived while busy |
| Bot.StopCommand | parrot.js:165-169 | the message `!stop` changes nothing and only ends the current dispatcher |
| Bot.ClearCommand | parrot.js:170-177 | the message `!clear` empties the queue, ends the current dispatcher and sends no reply |
| Bot.ClearedPlaybackEnds | parrot.js:268-274 | the end of the playback cancelled by `!clear` leaves the bot idle with nothing queued |
| Bot.TtsCommand | parrot.js:159-163 | `!tts` stores the toggled flag and reports it, does not touch the scheduler, and has no effect other than leaving the voice channel, which it does exactly when the author is in voice and nobody is enabled any more |
| Bot.BareVoiceCommand | parrot.js:203-207 | a bare `!voice` looks the author up, creating the row when needed, and answers `Current voice` with the stored voice; an existing row is left as it is; the scheduler is untouched and nothing is played |
| Bot.VoiceLookupStep | parrot.js:203-207 | a `voice` command without an argument is exactly the lookup-and-report reaction, or no reaction when no row can be created |
| Bot.VoiceCommand | parrot.js:183-202 | `!voice <name>` stores the named voice and answers `Voice set to`, or answers `Not a valid voice`, and never touches the scheduler |
| Bot.CommandStep | parrot.js:151-158 | a message parsed as a command goes to the `switch` with its name |
| Bot.IneligibleMessageIgnored | parrot.js:225-227 | a plain message from a user not in voice or without text to speech enabled changes nothing |
| Bot.ScenarioQueueing | parrot.js:226-232 | three messages in a row: the first is spoken, the others wait in arrival order |
| Bot.ScenarioFirstEnds | parrot.js:264-274 | the first playback starts and ends, and the second message is spoken |
| Bot.ScenarioStop | parrot.js:165-169 | `!stop` during the second playback ends it, and its end starts the third message |
| Bot.ScenarioSwitchOff | parrot.js:159-163 | `!tts` during the third playback switches the only user off, and the bot leaves at once and again at the end |
| Bot.ThreeMessagesScenario | parrot.js:225-274 | the whole run: messages play one at a time in arrival order, `!stop` moves on without discarding the next message, and the bot leaves once nobody has text to speech enabled |

## Left out

- Discord, Google text to speech, the file system and sqlite are external I/O. Their outcomes
  are events (`PlaybackStarted`, `PlaybackEnded`, `PlaybackFailed`) and their requests are
  effects (`Speak`, `EndPlayback`, `LeaveVoice`).
- A failed sqlite statement only logs and never calls back. The model treats every statement
  as succeeding.
- The text of the replies is abstracted into `Bot.Reply` values. `!tts` replies with the
  author's id, not with the author's username.
- A rejected `listVoices` call (lines 37-59) never calls back. `!voice <name>` then sends no
  reply, and new-user creation and `!random` do nothing. The model always receives a catalog
  with the message, so it does not cover this case.
- `deleteOldFiles` (lines 310-330) deletes temporary MP3 files by wall-clock age. It is file
  system housekeeping and does not touch the scheduler.
- `setVoice` (lines 133-147) ignores its voice argument and is never called.
- `getUser`, `getUserTtsEnabled` and `getUserVoice` (lines 62-69 and 94-104) are lookups. Only
  `getUser` is used, and it is modelled by `Scheduler.Eligible`.
- Asynchronous interleaving is not modelled. In the source, `getUser` calls back later, so a
  drain could shift several messages before `busy` is set. The model admits each drained
  message before checking `busy` again, as the code evidently intends.
- A `PlaybackEnded` event is not tied to the dispatcher that emitted it. In the source, the
  `"end"` of a dispatcher replaced at lines 264-267 could arrive after its successor was
  installed.
- `!tts` from an author who is not in a voice channel, when nobody is enabled afterwards: the
  source calls `join()` on `undefined` and throws. The model emits no `LeaveVoice`.
- An empty candidate list in `getOrCreateUser` or `randomizeLanguage`: the source throws
  inside the callback. The model makes no change and sends no reply.
- Text.Split: covers only a non-empty separator, because the code only splits on `' '` and
  `'!voice '`.
- Bot.VoiceCommand: requires that the requested name does not itself contain `!voice `. With a
  second occurrence, the code takes only the text between the first two occurrences;
  `Commands.VoiceArgumentFirstTwo` states that case.
- Dispatcher handles are plain natural numbers supplied by the `PlaybackStarted` event.

=== FILE: bot.dfy ===
/** `processMessage` and the playback callbacks as one event-driven state machine over the
    scheduler state and the user table. */
module Bot {
  import opened Maybe
  import opened Voices
  import opened Users
  import Commands
  import opened Scheduler
  import Text

  datatype World = World(sched: State, users: UserTable)

  /** The random draws a message may need: one for the voice of a user created on first
      lookup, one for the `!random` command. */
  datatype Choice = Choice(forNewUser: nat, forRandom: nat)

  /** Where a playback attempt failed: `voiceChannel.join()`, `synthesizeSpeech` or
      `fs.writeFile`. */
  datatype Failure = JoinFailed | SynthesisFailed | WriteFailed

  /** What reaches the bot. `present` is the set of users currently in a voice channel and
      `catalog` the answer of `listVoices` at that moment. */
  datatype Event =
    | Received(msg: Msg, present: set<UserId>, catalog: seq<Voice>, choice: Choice)
    | PlaybackStarted(handle: Handle)
    | PlaybackEnded(present: set<UserId>)
    | PlaybackFailed(stage: Failure, present: set<UserId>)

  /** The messages the bot sends back to the text channel. */
  datatype Reply =
    | TtsToggled(user: UserId, enabled: bool)
    | LanguageChanged(voice: string)
    | VoiceSet(voice: string)
    | NotAVoice(name: string)
    | CurrentVoice(voice: string)
    | SettingsHelp

  datatype Reaction = Reaction(world: World, effects: seq<Effect>, replies: seq<Reply>)

  /** `!tts`: toggle the author's flag; leave the author's voice channel when nobody has text
      to speech enabled any more. */
  function OnTts(w: World, m: Msg, present: set<UserId>, catalog: seq<Voice>, choice: Choice): Reaction
  {
    match ToggleTts(w.users, m.author, catalog, choice.forNewUser)
    case None => Reaction(w, [], [])
    case Some(t) =>
      var leave := if m.author in present && ShouldLeave(t.table) then [LeaveVoice] else [];
      Reaction(w.(users := t.table), leave, [TtsToggled(m.author, t.enabled)])
  }

  /** `!random`: a random WaveNet voice for the author. */
  function OnRandom(w: World, m: Msg, catalog: seq<Voice>, choice: Choice): Reaction
  {
    var rz := Randomize(w.users, m.author, catalog, RandomOptions, choice.forNewUser, choice.forRandom);
    Reaction(w.(users := rz.table), [], if rz.chosen.Some? then [LanguageChanged(rz.chosen.value.name)] else [])
  }

  /** `!voice <name>` sets the named voice; a bare `!voice` reports the current one. */
  function OnVoice(w: World, m: Msg, catalog: seq<Voice>, choice: Choice): Reaction
  {
    match Commands.VoiceArgument(m.content)
    case Some(requested) =>
      var named := SetVoiceNamed(w.users, m.author, catalog, requested);
      Reaction(w.(users := named.table), [],
               [if named.found.Some? then VoiceSet(requested) else NotAVoice(requested)])
    case None =>
      match GetOrCreate(w.users, m.author, catalog, choice.forNewUser)
      case None => Reaction(w, [], [])
      case Some(found) => Reaction(w.(users := found.table), [], [CurrentVoice(found.user.voice)])
  }

  /** The `switch (cmd)` of `processMessage`. */
  function OnCommand(w: World, m: Msg, name: string, present: set<UserId>,
                     catalog: seq<Voice>, choice: Choice): Reaction
  {
    match Commands.Classify(name)
    case Tts => OnTts(w, m, present, catalog, choice)
    case Stop =>
      var tr := Scheduler.Stop(w.sched);
      Reaction(w.(sched := tr.state), tr.effects, [])
    case Clear =>
      var tr := Scheduler.Clear(w.sched);
      Reaction(w.(sched := tr.state), tr.effects, [])
    case Random => OnRandom(w, m, catalog, choice)
    case VoiceCmd => OnVoice(w, m, catalog, choice)
    case Settings => Reaction(w, [], [SettingsHelp])
    case Unknown => Reaction(w, [], [])
  }

  /** `processMessage`: commands go to the `switch`, other messages to the text-to-speech
      path. */
  function OnMessage(w: World, m: Msg, present: set<UserId>, catalog: seq<Voice>, choice: Choice): Reaction
  {
    match Commands.Parse(m.content)
    case Command(name, _) => OnCommand(w, m, name, present, catalog, choice)
    case Plain(_) =>
      var tr := Admit(w.sched, w.users, present, m);
      Reaction(w.(sched := tr.state), tr.effects, [])
  }

  function Step(w: World, ev: Event): Reaction
  {
    match ev
    case Received(m, present, catalog, choice) => OnMessage(w, m, present, catalog, choice)
    case PlaybackStarted(h) =>
      var tr := Started(w.sched, h);
      Reaction(w.(sched := tr.state), tr.effects, [])
    case PlaybackEnded(present) =>
      var tr := Ended(w.sched, w.users, present);
      Reaction(w.(sched := tr.state), tr.effects, [])
    case PlaybackFailed(_, present) =>
      var tr := Failed(w.sched, w.users, present);
      Reaction(w.(sched := tr.state), tr.effects, [])
  }

  /** A sequence of events applied in order by `step`, with the effects and replies of each
      step concatenated. */
  function RunWith(step: (World, Event) -> Reaction, w: World, evs: seq<Event>): Reaction
    decreases |evs|
  {
    if |evs| == 0 then Reaction(w, [], [])
    else
      var first := step(w, evs[0]);
      var rest := RunWith(step, first.world, evs[1..]);
      Reaction(rest.world, first.effects + rest.effects, first.replies + rest.replies)
  }

  /** The bot's reaction to a sequence of events. */
  function Run(w: World, evs: seq<Event>): Reaction
  {
    RunWith(Step, w, evs)
  }

  /** The queue only ever holds plain (non-command) messages, and it is never left non-empty
      while the scheduler is idle. */
  ghost predicate Invariant(w: World)
  {
    && (|w.sched.queue| > 0 ==> w.sched.busy)
    && (forall i :: 0 <= i < |w.sched.queue| ==> !Commands.IsCommandText(w.sched.queue[i].content))
    && WellKeyed(w.users)
  }

  const Start := World(Initial, map[])

  lemma StartInvariant()
    ensures Invariant(Start)
  {
  }

  /** Every event keeps the invariant. */
  lemma StepPreservesInvariant(w: World, ev: Event)
    requires Invariant(w)
    ensures Invariant(Step(w, ev).world)
  {
    var s := w.sched;
    match ev
    case Received(m, present, catalog, choice) =>
      match Commands.Parse(m.content) {
        case Command(name, _) =>
          CommandPreservesInvariant(w, m, name, present, catalog, choice);
        case Plain(_) =>
          var q2 := Admit(s, w.users, present, m).state.queue;
          assert forall i :: 0 <= i < |q2| ==> q2[i] == m || q2[i] == s.queue[i];
      }
    case PlaybackStarted(h) =>
    case PlaybackEnded(present) =>
      SuffixKeepsPlain(s.queue, Ended(s, w.users, present).state.queue);
    case PlaybackFailed(_, present) =>
      SuffixKeepsPlain(s.queue, Failed(s, w.users, present).state.queue);
  }

  lemma CommandPreservesInvariant(w: World, m: Msg, name: string, present: set<UserId>,
                                  catalog: seq<Voice>, choice: Choice)
    requires Invariant(w)
    ensures Invariant(OnCommand(w, m, name, present, catalog, choice).world)
  {
    var r := OnCommand(w, m, name, present, catalog, choice);
    match Commands.Classify(name)
    case Tts =>
      assert r == OnTts(w, m, present, catalog, choice);
    case Stop =>
    case Clear =>
    case Random =>
      assert r == OnRandom(w, m, catalog, choice);
      RandomizeWellKeyed(w.users, m.author, catalog, RandomOptions, choice.forNewUser, choice.forRandom);
    case VoiceCmd =>
      assert r == OnVoice(w, m, catalog, choice);
    case Settings =>
    case Unknown =>
  }

  lemma SuffixKeepsPlain(q: seq<Msg>, q2: seq<Msg>)
    requires forall i :: 0 <= i < |q| ==> !Commands.IsCommandText(q[i].content)
    requires exists k :: 0 <= k <= |q| && q2 == q[k..]
    ensures forall i :: 0 <= i < |q2| ==> !Commands.IsCommandText(q2[i].content)
  {
    var k :| 0 <= k <= |q| && q2 == q[k..];
    assert forall i :: 0 <= i < |q2| ==> q2[i] == q[k + i];
  }

  /** Any run from a state satisfying the invariant keeps it. */
  lemma {:induction false} RunPreservesInvariant(w: World, evs: seq<Event>)
    requires Invariant(w)
    ensures Invariant(Run(w, evs).world)
    decreases |evs|
  {
    if |evs| > 0 {
      StepPreservesInvariant(w, evs[0]);
      RunPreservesInvariant(Step(w, evs[0]).world, evs[1..]);
    }
  }

  /** FIFO discipline: an event either removes messages from the head of the queue only, or
      (a plain message arriving while busy) appends that one message at the tail and removes
      nothing. A failed or stopped message is never put back. */
  lemma StepQueueDiscipline(w: World, ev: Event)
    ensures var q := w.sched.queue;
      var q2 := Step(w, ev).world.sched.queue;
      || (exists k :: 0 <= k <= |q| && q2 == q[k..])
      || (ev.Received? && q2 == q + [ev.msg] && Eligible(w.users, ev.present, ev.msg))
  {
    var q := w.sched.queue;
    var q2 := Step(w, ev).world.sched.queue;
    match ev
    case Received(m, present, catalog, choice) =>
      match Commands.Parse(m.content) {
        case Command(name, _) =>
          if Commands.Classify(name) == Commands.Clear {
            assert q2 == q[|q|..];
          } else {
            assert q2 == q[0..];
          }
        case Plain(_) =>
          if !(Eligible(w.users, present, m) && w.sched.busy) {
            assert q2 == q[0..];
          }
      }
    case PlaybackStarted(h) =>
      assert q2 == q[0..];
    case PlaybackEnded(present) =>
    case PlaybackFailed(_, present) =>
  }

  /** `!stop` changes nothing but asks the current dispatcher, if any, to end. */
  lemma StopCommand(w: World, m: Msg, present: set<UserId>, catalog: seq<Voice>, choice: Choice)
    requires m.content == "!stop"
    ensures Step(w, Received(m, present, catalog, choice)) == Reaction(w, EndCurrent(w.sched), [])
  {
    Commands.ParseWord("stop");
  }

  /** `!clear` discards every queued message and asks the current dispatcher to end. */
  lemma ClearCommand(w: World, m: Msg, present: set<UserId>, catalog: seq<Voice>, choice: Choice)
    requires m.content == "!clear"
    ensures var r := Step(w, Received(m, present, catalog, choice));
      && r.world == w.(sched := w.sched.(queue := []))
      && r.effects == EndCurrent(w.sched)
      && r.replies == []
  {
    Commands.ParseWord("clear");
    CommandStep(w, m, present, catalog, choice, "clear", []);
  }

  /** The end of the playback cancelled by `!clear` leaves the bot idle with nothing queued. */
  lemma ClearedPlaybackEnds(w: World, present: set<UserId>)
    ensures Step(w.(sched := w.sched.(queue := [])), PlaybackEnded(present)).world == World(Initial, w.users)
  {
    ClearThenEnded(w.sched, w.users, present);
  }

  /** `!tts` flips the author's flag and answers with the new value; it leaves the voice
      channel exactly when the author is in one and nobody has text to speech enabled any
      more, so switching on never leaves. The scheduler is not touched. */
  lemma TtsCommand(w: World, m: Msg, present: set<UserId>, catalog: seq<Voice>, choice: Choice)
    requires m.content == "!tts"
    ensures var r := Step(w, Received(m, present, catalog, choice));
      var t := ToggleTts(w.users, m.author, catalog, choice.forNewUser);
      && r.world.sched == w.sched
      && (t.None? ==> r == Reaction(w, [], []))
      && (t.Some? ==>
            && r.world.users == t.value.table
            && r.replies == [TtsToggled(m.author, t.value.enabled)]
            && (LeaveVoice in r.effects <==> m.author in present && ShouldLeave(t.value.table))
            && r.effects == (if m.author in present && ShouldLeave(t.value.table) then [LeaveVoice] else [])
            && (t.value.enabled ==> r.effects == []))
  {
    Commands.ParseWord("tts");
    CommandStep(w, m, present, catalog, choice, "tts", []);
    if ToggleTts(w.users, m.author, catalog, choice.forNewUser).Some? {
      ToggleDecidesLeave(w.users, m.author, catalog, choice.forNewUser);
    }
  }

  /** `!voice <name>` stores the first catalog voice called `name` for an author who has a row
      and answers `Voice set to`, or answers `Not a valid voice` when the catalog has no such
      voice. Nothing is played or stopped. */
  lemma VoiceCommand(w: World, m: Msg, name: string, present: set<UserId>, catalog: seq<Voice>, choice: Choice)
    requires m.content == Commands.VoicePrefix + name
    requires !Text.Contains(name, Commands.VoicePrefix)
    ensures var r := Step(w, Received(m, present, catalog, choice));
      && r.world.sched == w.sched
      && r.effects == []
      && r.world.users == SetVoiceNamed(w.users, m.author, catalog, name).table
      && ((exists v :: v in catalog && v.name == name) ==> r.replies == [VoiceSet(name)])
      && (!(exists v :: v in catalog && v.name == name) ==> r.replies == [NotAVoice(name)])
  {
    Commands.ParseVoice(name);
    var p := Commands.Parse(m.content);
    CommandStep(w, m, present, catalog, choice, "voice", p.args);
    Commands.VoiceArgumentOfName(name);
  }

  /** A bare `!voice` looks the author up (creating the row if needed) and reports the stored
      voice; an existing row is left as it is. Nothing is played or stopped. */
  lemma BareVoiceCommand(w: World, m: Msg, present: set<UserId>, catalog: seq<Voice>, choice: Choice)
    requires m.content == "!voice"
    ensures var r := Step(w, Received(m, present, catalog, choice));
      var g := GetOrCreate(w.users, m.author, catalog, choice.forNewUser);
      && r.world.sched == w.sched
      && r.effects == []
      && (g.None? ==> r == Reaction(w, [], []))
      && (g.Some? ==> r.world.users == g.value.table && r.replies == [CurrentVoice(g.value.user.voice)])
      && (m.author in w.users ==>
            r.world.users == w.users && r.replies == [CurrentVoice(w.users[m.author].voice)])
  {
    Commands.BareVoiceHasNoArgument();
    VoiceLookupStep(w, m, present, catalog, choice);
  }

  /** A `voice` command without an argument only looks the author up and reports the stored
      voice. */
  lemma VoiceLookupStep(w: World, m: Msg, present: set<UserId>, catalog: seq<Voice>, choice: Choice)
    requires Commands.Parse(m.content) == Commands.Command("voice", [])
    requires Commands.VoiceArgument(m.content).None?
    ensures var g := GetOrCreate(w.users, m.author, catalog, choice.forNewUser);
      Step(w, Received(m, present, catalog, choice))
        == if g.Some? then Reaction(w.(users := g.value.table), [], [CurrentVoice(g.value.user.voice)])
           else Reaction(w, [], [])
  {
    CommandStep(w, m, present, catalog, choice, "voice", []);
  }

  /** A command message goes to the `switch` with its parsed name. */
  lemma CommandStep(w: World, m: Msg, present: set<UserId>, catalog: seq<Voice>, choice: Choice,
                    name: string, args: seq<string>)
    requires Commands.Parse(m.content) == Commands.Command(name, args)
    ensures Step(w, Received(m, present, catalog, choice)) == OnCommand(w, m, name, present, catalog, choice)
  {
  }

  /** A plain message from a user who is not in a voice channel or has text to speech
      disabled changes nothing at all. */
  lemma IneligibleMessageIgnored(w: World, m: Msg, present: set<UserId>, catalog: seq<Voice>, choice: Choice)
    requires !Commands.IsCommandText(m.content)
    requires !Eligible(w.users, present, m)
    ensures Step(w, Received(m, present, catalog, choice)) == Reaction(w, [], [])
  {
  }

  /** Running a non-empty sequence is one step followed by the run of the rest. */
  lemma RunCons(step: (World, Event) -> Reaction, w: World, ev: Event, rest: seq<Event>)
    ensures var first := step(w, ev);
      var after := RunWith(step, first.world, rest);
      RunWith(step, w, [ev] + rest)
        == Reaction(after.world, first.effects + after.effects, first.replies + after.replies)
  {
    assert ([ev] + rest)[0] == ev;
    assert ([ev] + rest)[1..] == rest;
  }

  /** Running `a + b` is running `a`, then running `b` from where `a` left the bot. */
  lemma {:induction false} RunAppend(step: (World, Event) -> Reaction, w: World, a: seq<Event>, b: seq<Event>)
    ensures var first := RunWith(step, w, a);
      var after := RunWith(step, first.world, b);
      RunWith(step, w, a + b)
        == Reaction(after.world, first.effects + after.effects, first.replies + after.replies)
    decreases |a|
  {
    if |a| == 0 {
      assert a + b == b;
    } else {
      var first := step(w, a[0]);
      RunAppend(step, first.world, a[1..], b);
      assert |a + b| > 0 && (a + b)[0] == a[0];
      assert (a + b)[1..] == a[1..] + b;
      var mid := RunWith(step, first.world, a[1..]);
      var after := RunWith(step, mid.world, b);
      assert first.effects + (mid.effects + after.effects) == (first.effects + mid.effects) + after.effects;
      assert first.replies + (mid.replies + after.replies) == (first.replies + mid.replies) + after.replies;
    }
  }

  /** The worked run below: one user, "alice", in a voice channel with text to speech on. */
  const Alice := User("alice", Some("en-US"), "en-US-Wavenet-A", true)
  const AliceOnly: UserTable := map["alice" := Alice]
  const AliceOff: UserTable := map["alice" := Alice.(ttsEnabled := false)]
  const Here: set<UserId> := {"alice"}
  const One := Msg("alice", "one")
  const Two := Msg("alice", "two")
  const Three := Msg("alice", "three")

  /** Three messages in a row: the first plays at once, the others wait in arrival order. */
  lemma ScenarioQueueing(catalog: seq<Voice>, choice: Choice)
    ensures Step(World(Initial, AliceOnly), Received(One, Here, catalog, choice))
            == Reaction(World(State([], true, None), AliceOnly), [Speak(One)], [])
    ensures Step(World(State([], true, None), AliceOnly), Received(Two, Here, catalog, choice))
            == Reaction(World(State([Two], true, None), AliceOnly), [], [])
    ensures Step(World(State([Two], true, None), AliceOnly), Received(Three, Here, catalog, choice))
            == Reaction(World(State([Two, Three], true, None), AliceOnly), [], [])
  {
  }

  /** The first playback starts and ends: the second message starts. */
  lemma ScenarioFirstEnds()
    ensures Step(World(State([Two, Three], true, None), AliceOnly), PlaybackStarted(1))
            == Reaction(World(State([Two, Three], true, Some(1)), AliceOnly), [], [])
    ensures Step(World(State([Two, Three], true, Some(1)), AliceOnly), PlaybackEnded(Here))
            == Reaction(World(State([Three], true, None), AliceOnly), [Speak(Two)], [])
  {
    var s := State([Two, Three], false, None);
    assert FirstEligible(s.queue, AliceOnly, Here) == Some(0);
    assert s.queue[1..] == [Three];
  }

  /** `!stop` during the second playback ends it; its end starts the third message. */
  lemma ScenarioStop(catalog: seq<Voice>, choice: Choice)
    ensures Step(World(State([Three], true, None), AliceOnly), PlaybackStarted(2))
            == Reaction(World(State([Three], true, Some(2)), AliceOnly), [], [])
    ensures Step(World(State([Three], true, Some(2)), AliceOnly), Received(Msg("alice", "!stop"), Here, catalog, choice))
            == Reaction(World(State([Three], true, Some(2)), AliceOnly), [EndPlayback(2)], [])
    ensures Step(World(State([Three], true, Some(2)), AliceOnly), PlaybackEnded(Here))
            == Reaction(World(State([], true, None), AliceOnly), [Speak(Three)], [])
  {
    StopCommand(World(State([Three], true, Some(2)), AliceOnly), Msg("alice", "!stop"), Here, catalog, choice);
    var s := State([Three], false, None);
    assert FirstEligible(s.queue, AliceOnly, Here) == Some(0);
  }

  /** `!tts` during the third playback switches alice off, and nobody is left enabled: the bot
      leaves at once and again when the third playback ends. */
  lemma ScenarioSwitchOff(catalog: seq<Voice>, choice: Choice)
    ensures Step(World(State([], true, None), AliceOnly), Received(Msg("alice", "!tts"), Here, catalog, choice))
            == Reaction(World(State([], true, None), AliceOff), [LeaveVoice], [TtsToggled("alice", false)])
    ensures Step(World(State([], true, None), AliceOff), PlaybackEnded(Here))
            == Reaction(World(Initial, AliceOff), [LeaveVoice], [])
  {
    Commands.ParseWord("tts");
    assert AliceOnly["alice" := Alice.(ttsEnabled := false)] == AliceOff;
    assert ShouldLeave(AliceOff);
  }

  /** The run of one event is that event's step. */
  lemma RunSingle(w: World, ev: Event)
    ensures Run(w, [ev]) == Step(w, ev)
  {
    RunCons(Step, w, ev, []);
    assert [ev] + [] == [ev];
    var r := Step(w, ev);
    assert r.effects + [] == r.effects;
    assert r.replies + [] == r.replies;
  }

  lemma QueueingRun(catalog: seq<Voice>, choice: Choice)
    ensures Run(World(Initial, AliceOnly), [Received(One, Here, catalog, choice),
                                            Received(Two, Here, catalog, choice),
                                            Received(Three, Here, catalog, choice)])
            == Reaction(World(State([Two, Three], true, None), AliceOnly), [Speak(One)], [])
  {
    ScenarioQueueing(catalog, choice);
    var e3 := [Received(Three, Here, catalog, choice)];
    var e2 := [Received(Two, Here, catalog, choice)] + e3;
    assert [Received(One, Here, catalog, choice)] + e2
        == [Received(One, Here, catalog, choice), Received(Two, Here, catalog, choice),
            Received(Three, Here, catalog, choice)];
    assert [Speak(One)] + ([] + []) == [Speak(One)];
    RunSingle(World(State([Two], true, None), AliceOnly), Received(Three, Here, catalog, choice));
    RunCons(Step, World(State([], true, None), AliceOnly), Received(Two, Here, catalog, choice), e3);
    RunCons(Step, World(Initial, AliceOnly), Received(One, Here, catalog, choice), e2);
  }

  lemma FirstEndsRun()
    ensures Run(World(State([Two, Three], true, None), AliceOnly), [PlaybackStarted(1), PlaybackEnded(Here)])
            == Reaction(World(State([Three], true, None), AliceOnly), [Speak(Two)], [])
  {
    ScenarioFirstEnds();
    RunSingle(World(State([Two, Three], true, Some(1)), AliceOnly), PlaybackEnded(Here));
    RunCons(Step, World(State([Two, Three], true, None), AliceOnly), PlaybackStarted(1), [PlaybackEnded(Here)]);
    assert [] + [Speak(Two)] == [Speak(Two)];
  }

  lemma StopRun(catalog: seq<Voice>, choice: Choice)
    ensures Run(World(State([Three], true, None), AliceOnly),
                [PlaybackStarted(2), Received(Msg("alice", "!stop"), Here, catalog, choice), PlaybackEnded(Here)])
            == Reaction(World(State([], true, None), AliceOnly), [EndPlayback(2), Speak(Three)], [])
  {
    ScenarioStop(catalog, choice);
    var w6 := World(State([Three], true, Some(2)), AliceOnly);
    var stop := Received(Msg("alice", "!stop"), Here, catalog, choice);
    RunSingle(w6, PlaybackEnded(Here));
    RunCons(Step, w6, stop, [PlaybackEnded(Here)]);
    RunCons(Step, World(State([Three], true, None), AliceOnly), PlaybackStarted(2), [stop, PlaybackEnded(Here)]);
    assert [stop] + [PlaybackEnded(Here)] == [stop, PlaybackEnded(Here)];
    assert [PlaybackStarted(2)] + [stop, PlaybackEnded(Here)] == [PlaybackStarted(2), stop, PlaybackEnded(Here)];
    assert [] + ([EndPlayback(2)] + [Speak(Three)]) == [EndPlayback(2), Speak(Three)];
  }

  lemma SwitchOffRun(catalog: seq<Voice>, choice: Choice)
    ensures Run(World(State([], true, None), AliceOnly),
                [Received(Msg("alice", "!tts"), Here, catalog, choice), PlaybackEnded(Here)])
            == Reaction(World(Initial, AliceOff), [LeaveVoice, LeaveVoice], [TtsToggled("alice", false)])
  {
    ScenarioSwitchOff(catalog, choice);
    var tts := Received(Msg("alice", "!tts"), Here, catalog, choice);
    RunSingle(World(State([], true, None), AliceOff), PlaybackEnded(Here));
    RunCons(Step, World(State([], true, None), AliceOnly), tts, [PlaybackEnded(Here)]);
    assert [tts] + [PlaybackEnded(Here)] == [tts, PlaybackEnded(Here)];
    assert [TtsToggled("alice", false)] + [] == [TtsToggled("alice", false)];
  }

  /** The whole run: messages play one at a time in arrival order, `!stop` moves on to the
      next message without discarding it, and the bot leaves once nobody has text to speech
      enabled. */
  lemma ThreeMessagesScenario(catalog: seq<Voice>, choice: Choice)
    ensures Run(World(Initial, AliceOnly), [
        Received(One, Here, catalog, choice),
        Received(Two, Here, catalog, choice),
        Received(Three, Here, catalog, choice),
        PlaybackStarted(1),
        PlaybackEnded(Here),
        PlaybackStarted(2),
        Received(Msg("alice", "!stop"), Here, catalog, choice),
        PlaybackEnded(Here),
        Received(Msg("alice", "!tts"), Here, catalog, choice),
        PlaybackEnded(Here)])
      == Reaction(World(Initial, AliceOff),
                  [Speak(One), Speak(Two), EndPlayback(2), Speak(Three), LeaveVoice, LeaveVoice],
                  [TtsToggled("alice", false)])
  {
    var p1 := [Received(One, Here, catalog, choice), Received(Two, Here, catalog, choice),
               Received(Three, Here, catalog, choice)];
    var p2 := [PlaybackStarted(1), PlaybackEnded(Here)];
    var p3 := [PlaybackStarted(2), Received(Msg("alice", "!stop"), Here, catalog, choice), PlaybackEnded(Here)];
    var p4 := [Received(Msg("alice", "!tts"), Here, catalog, choice), PlaybackEnded(Here)];
    assert p1 + (p2 + (p3 + p4)) == [
        Received(One, Here, catalog, choice),
        Received(Two, Here, catalog, choice),
        Received(Three, Here, catalog, choice),
        PlaybackStarted(1),
        PlaybackEnded(Here),
        PlaybackStarted(2),
        Received(Msg("alice", "!stop"), Here, catalog, choice),
        PlaybackEnded(Here),
        Received(Msg("alice", "!tts"), Here, catalog, choice),
        PlaybackEnded(Here)];
    assert [Speak(One)] + ([Speak(Two)] + ([EndPlayback(2), Speak(Three)] + [LeaveVoice, LeaveVoice]))
        == [Speak(One), Speak(Two), EndPlayback(2), Speak(Three), LeaveVoice, LeaveVoice];
    var none: seq<Reply> := [];
    assert none + (none + (none + [TtsToggled("alice", false)])) == [TtsToggled("alice", false)];
    QueueingRun(catalog, choice);
    FirstEndsRun();
    StopRun(catalog, choice);
    SwitchOffRun(catalog, choice);
    var w1 := World(State([Two, Three], true, None), AliceOnly);
    var w2 := World(State([Three], true, None), AliceOnly);
    var w3 := World(State([], true, None), AliceOnly);
    RunAppend(Step, w2, p3, p4);
    RunAppend(Step, w1, p2, p3 + p4);
    RunAppend(Step, World(Initial, AliceOnly), p1, p2 + (p3 + p4));
  }
}

=== FILE: commands.dfy ===
/** How `processMessage` reads a chat message: a leading `!` marks a command whose name is
    the first space-separated word and whose arguments are the remaining words; the
    `!voice` command takes its argument from the text following `"!voice "`. */
module Commands {
  import opened Maybe
  import Text

  datatype Parsed = Command(name: string, args: seq<string>) | Plain(text: string)

  /** `msg.content.substring(0, 1) == '!'` */
  predicate IsCommandText(content: string)
  {
    |content| > 0 && content[0] == '!'
  }

  /** `args = content.substring(1).split(' ')`, `cmd = args[0]`, `args = args.splice(1)`. */
  function Parse(content: string): (r: Parsed)
    ensures r.Command? <==> IsCommandText(content)
    ensures r.Plain? ==> r.text == content
    ensures r.Command? ==> ' ' !in r.name
    ensures r.Command? ==> forall i :: 0 <= i < |r.args| ==> ' ' !in r.args[i]
  {
    if IsCommandText(content) then
      var words := Text.Split(content[1..], " ");
      Text.SplitPiecesAvoidChar(content[1..], ' ');
      assert forall i :: 1 <= i < |words| ==> words[1..][i - 1] == words[i];
      Command(words[0], words[1..])
    else
      Plain(content)
  }

  /** The message text a parse came from. */
  function Render(p: Parsed): string
  {
    match p
    case Command(name, args) => "!" + Text.Join([name] + args, " ")
    case Plain(text) => text
  }

  /** Parsing loses nothing: the words and the `!` give back the message. */
  lemma RenderParse(content: string)
    ensures Render(Parse(content)) == content
  {
    if IsCommandText(content) {
      var words := Text.Split(content[1..], " ");
      Text.JoinSplit(content[1..], " ");
      assert [words[0]] + words[1..] == words;
      assert content == [content[0]] + content[1..];
    }
  }

  /** A command whose name and arguments contain no space is parsed back exactly. */
  lemma ParseRender(name: string, args: seq<string>)
    requires ' ' !in name
    requires forall i :: 0 <= i < |args| ==> ' ' !in args[i]
    ensures Parse(Render(Command(name, args))) == Command(name, args)
  {
    var words := [name] + args;
    assert forall i :: 0 <= i < |words| ==> ' ' !in words[i] by {
      forall i | 0 <= i < |words| ensures ' ' !in words[i] {
        if i > 0 {
          assert words[i] == args[i - 1];
        }
      }
    }
    Text.SplitJoinChar(words, ' ');
    var content := "!" + Text.Join(words, " ");
    assert content[1..] == Text.Join(words, " ");
    assert words[1..] == args;
  }

  /** The cases of the `switch (cmd)`; anything else is ignored. */
  datatype Kind = Tts | Stop | Clear | Random | VoiceCmd | Settings | Unknown

  function Classify(name: string): Kind
  {
    if name == "tts" then Tts
    else if name == "stop" then Stop
    else if name == "clear" then Clear
    else if name == "random" then Random
    else if name == "voice" then VoiceCmd
    else if name == "settings" then Settings
    else Unknown
  }

  const VoicePrefix := "!voice "

  /** `inputs = msg.content.split('!voice ')`: when there are at least two pieces the requested
      voice name is `inputs[1]`, the text between the first and any second `"!voice "`. */
  function VoiceArgument(content: string): (r: Option<string>)
    ensures r.Some? <==> Text.Contains(content, VoicePrefix)
  {
    var inputs := Text.Split(content, VoicePrefix);
    Text.SplitCountsOccurrence(content, VoicePrefix);
    if |inputs| > 1 then Some(inputs[1]) else None
  }

  /** `!voice <name>` names exactly the voice after the prefix. */
  lemma VoiceArgumentOfName(name: string)
    requires !Text.Contains(name, VoicePrefix)
    ensures VoiceArgument(VoicePrefix + name) == Some(name)
  {
    var content := VoicePrefix + name;
    assert content[..|VoicePrefix|] == VoicePrefix;
    assert content[|VoicePrefix|..] == name;
    Text.SplitWithoutSeparator(name, VoicePrefix);
  }

  /** With a second `"!voice "` in the message, the argument is the text between the first
      two occurrences; the rest of the message is ignored. */
  lemma VoiceArgumentFirstTwo(name: string, rest: string)
    requires !Text.Contains(name, VoicePrefix)
    ensures VoiceArgument(VoicePrefix + name + VoicePrefix + rest) == Some(name)
  {
    var content := VoicePrefix + name + VoicePrefix + rest;
    assert content[..|VoicePrefix|] == VoicePrefix;
    assert content[|VoicePrefix|..] == name + VoicePrefix + rest;
    Text.SplitBeforeSeparator(name, VoicePrefix, rest);
    assert Text.Split(content, VoicePrefix) == [""] + Text.Split(name + VoicePrefix + rest, VoicePrefix);
  }

  /** A bare `!voice` carries no argument and asks for the current voice. */
  lemma BareVoiceHasNoArgument()
    ensures Parse("!voice") == Command("voice", [])
    ensures VoiceArgument("!voice") == None
  {
    ParseRender("voice", []);
    assert Render(Command("voice", [])) == "!voice";
    assert forall i :: !Text.OccursAt("!voice", VoicePrefix, i);
  }

  /** Any message starting with `"!voice "` is the `voice` command, whatever follows. */
  lemma ParseVoice(rest: string)
    ensures Parse(VoicePrefix + rest).Command?
    ensures Parse(VoicePrefix + rest).name == "voice"
  {
    var content := VoicePrefix + rest;
    assert content[1..] == "voice" + [' '] + rest;
    Text.SplitFirstPiece("voice", ' ', rest);
  }

  /** A one-word command such as `!stop` or `!clear` has that word as its name and no
      arguments. */
  lemma ParseWord(word: string)
    requires ' ' !in word
    ensures Parse("!" + word) == Command(word, [])
  {
    ParseRender(word, []);
    assert Render(Command(word, [])) == "!" + word;
  }
}

=== FILE: maybe.dfy ===
/** Option values standing in for JavaScript's `null` / `undefined`. */
module Maybe {

  datatype Option<+T> = None | Some(value: T)
}

=== FILE: scheduler.dfy ===
/** The process-wide playback scheduler: the FIFO `queuedMessages`, the `busy` flag and the
    current `StreamDispatcher`, with the transitions `processMessage` and its callbacks
    perform on them. Every external call (joining the channel, speech synthesis, writing the
    MP3, playing it) is replaced by the event that reports its outcome, so each transition
    is a pure function from the old state to the new one plus the effects it requests. */
module Scheduler {
  import opened Maybe
  import opened Users

  /** Identity of a `StreamDispatcher` returned by `connection.playFile`. */
  type Handle = nat

  /** A chat message as far as the scheduler looks at it. */
  datatype Msg = Msg(author: UserId, content: string)

  datatype State = State(queue: seq<Msg>, busy: bool, dispatcher: Option<Handle>)

  /** The globals at start-up: `queuedMessages = []`, `busy = false`, no dispatcher. */
  const Initial := State([], false, None)

  /** Requests to the outside world. `Speak(m)`: join the author's voice channel, synthesize
      `m` and play it. `EndPlayback(h)`: `h.end()`. `LeaveVoice`: leave the voice channel. */
  datatype Effect = Speak(msg: Msg) | EndPlayback(handle: Handle) | LeaveVoice

  datatype Transition = Transition(state: State, effects: seq<Effect>)

  /** A plain message is spoken only when its author is in a voice channel
      (`msg.member.voiceChannel`) and has a row with `tts_enabled` set (`getUser`). */
  predicate Eligible(users: UserTable, present: set<UserId>, m: Msg)
  {
    m.author in present && m.author in users && users[m.author].ttsEnabled
  }

  /** The text-to-speech path of `processMessage`: while busy an eligible message waits at the
      tail of the queue; otherwise it makes the scheduler busy and starts playing. */
  function Admit(s: State, users: UserTable, present: set<UserId>, m: Msg): (r: Transition)
    ensures !Eligible(users, present, m) ==> r == Transition(s, [])
    ensures Eligible(users, present, m) && s.busy ==>
      r == Transition(s.(queue := s.queue + [m]), [])
    ensures Eligible(users, present, m) && !s.busy ==>
      r == Transition(s.(busy := true), [Speak(m)])
  {
    if !Eligible(users, present, m) then Transition(s, [])
    else if s.busy then Transition(s.(queue := s.queue + [m]), [])
    else Transition(s.(busy := true), [Speak(m)])
  }

  /** `currentStreamDispatcher.end()` when there is a dispatcher. */
  function EndCurrent(s: State): (e: seq<Effect>)
    ensures s.dispatcher.None? <==> e == []
    ensures s.dispatcher.Some? ==> e == [EndPlayback(s.dispatcher.value)]
  {
    match s.dispatcher
    case None => []
    case Some(h) => [EndPlayback(h)]
  }

  /** `!stop`: ends the current playback; the state itself only changes when the dispatcher
      reports its end. */
  function Stop(s: State): (r: Transition)
    ensures r.state == s
    ensures r.effects == EndCurrent(s)
  {
    Transition(s, EndCurrent(s))
  }

  /** `!clear`: empties the queue and ends the current playback. */
  function Clear(s: State): (r: Transition)
    ensures r.state.queue == []
    ensures r.state.busy == s.busy && r.state.dispatcher == s.dispatcher
    ensures r.effects == EndCurrent(s)
  {
    var emptied := s.(queue := []);
    Transition(emptied, EndCurrent(s))
  }

  /** The MP3 was written: the previous dispatcher, if any, is ended before the new one
      returned by `connection.playFile` is installed. */
  function Started(s: State, h: Handle): (r: Transition)
    ensures r.state.dispatcher == Some(h)
    ensures r.state.queue == s.queue && r.state.busy == s.busy
    ensures s.dispatcher.Some? ==> r.effects == [EndPlayback(s.dispatcher.value)]
    ensures s.dispatcher.None? ==> r.effects == []
  {
    Transition(s.(dispatcher := Some(h)), EndCurrent(s))
  }

  /** Reference definition: the position of the first eligible message of the queue. */
  function FirstEligible(q: seq<Msg>, users: UserTable, present: set<UserId>): (r: Option<nat>)
    ensures r.Some? ==> r.value < |q| && Eligible(users, present, q[r.value])
    ensures r.Some? ==> forall j :: 0 <= j < r.value ==> !Eligible(users, present, q[j])
    ensures r.None? ==> forall j :: 0 <= j < |q| ==> !Eligible(users, present, q[j])
    decreases |q|
  {
    if |q| == 0 then None
    else if Eligible(users, present, q[0]) then Some(0)
    else match FirstEligible(q[1..], users, present)
      case None => None
      case Some(k) => Some(k + 1)
  }

  /** `processMessageQueue`: take messages off the head of the queue and admit them until one
      makes the scheduler busy or the queue runs out. Started idle, it drops the ineligible
      messages in front, starts the first eligible one and keeps everything behind it in
      order; with no eligible message it ends idle with an empty queue. Started busy, the
      head is re-admitted and so moves to the tail (or is dropped). */
  function Drain(s: State, users: UserTable, present: set<UserId>): (r: Transition)
    ensures |s.queue| == 0 ==> r == Transition(s, [])
    ensures r.state.dispatcher == s.dispatcher
    ensures !s.busy && FirstEligible(s.queue, users, present).Some? ==>
      var k := FirstEligible(s.queue, users, present).value;
      && r.state.busy
      && r.state.queue == s.queue[k + 1..]
      && r.effects == [Speak(s.queue[k])]
    ensures !s.busy && FirstEligible(s.queue, users, present).None? ==>
      r == Transition(s.(queue := []), [])
    ensures s.busy && |s.queue| > 0 ==>
      && r.state.busy
      && r.effects == []
      && r.state.queue == s.queue[1..] + (if Eligible(users, present, s.queue[0]) then [s.queue[0]] else [])
    decreases |s.queue|
  {
    if |s.queue| == 0 then Transition(s, [])
    else
      var head := s.queue[0];
      var a := Admit(s.(queue := s.queue[1..]), users, present, head);
      if a.state.busy then a
      else
        var d := Drain(a.state, users, present);
        Transition(d.state, a.effects + d.effects)
  }

  /** The common tail of every way a playback attempt finishes: drain the queue, then leave
      the voice channel when no user has text to speech enabled (`maybeLeaveVoice`). */
  function Complete(s: State, users: UserTable, present: set<UserId>): Transition
  {
    var d := Drain(s, users, present);
    Transition(d.state, d.effects + if ShouldLeave(users) then [LeaveVoice] else [])
  }

  /** The dispatcher's `"end"` handler: not busy, no dispatcher, drain, maybe leave. */
  function Ended(s: State, users: UserTable, present: set<UserId>): (r: Transition)
    ensures r.state.dispatcher == None
    ensures !r.state.busy ==> r.state.queue == []
    ensures exists k :: 0 <= k <= |s.queue| && r.state.queue == s.queue[k..]
    ensures (LeaveVoice in r.effects) <==> ShouldLeave(users)
    ensures var f := FirstEligible(s.queue, users, present);
      && (f.None? ==> r.state.queue == [] && !r.state.busy
                      && r.effects == (if ShouldLeave(users) then [LeaveVoice] else []))
      && (f.Some? ==> r.state.busy && r.state.queue == s.queue[f.value + 1..]
                      && r.effects == [Speak(s.queue[f.value])])
  {
    var r := Complete(s.(busy := false, dispatcher := None), users, present);
    EligibleKeepsVoice(s.queue, users, present);
    DrainKeepsSuffix(s.(busy := false, dispatcher := None), users, present);
    r
  }

  /** A failed join, synthesis or file write: not busy, drain, maybe leave. Unlike the `"end"`
      handler these paths leave `currentStreamDispatcher` as it was. */
  function Failed(s: State, users: UserTable, present: set<UserId>): (r: Transition)
    ensures r.state.dispatcher == s.dispatcher
    ensures !r.state.busy ==> r.state.queue == []
    ensures exists k :: 0 <= k <= |s.queue| && r.state.queue == s.queue[k..]
    ensures (LeaveVoice in r.effects) <==> ShouldLeave(users)
    ensures var f := FirstEligible(s.queue, users, present);
      && (f.None? ==> r.state.queue == [] && !r.state.busy
                      && r.effects == (if ShouldLeave(users) then [LeaveVoice] else []))
      && (f.Some? ==> r.state.busy && r.state.queue == s.queue[f.value + 1..]
                      && r.effects == [Speak(s.queue[f.value])])
  {
    var r := Complete(s.(busy := false), users, present);
    EligibleKeepsVoice(s.queue, users, present);
    DrainKeepsSuffix(s.(busy := false), users, present);
    r
  }

  /** A queued message that would be spoken belongs to a user with text to speech enabled,
      so the bot does not leave. */
  lemma EligibleKeepsVoice(q: seq<Msg>, users: UserTable, present: set<UserId>)
    ensures FirstEligible(q, users, present).Some? ==> !ShouldLeave(users)
  {
    if FirstEligible(q, users, present).Some? {
      var m := q[FirstEligible(q, users, present).value];
      assert users[m.author].ttsEnabled;
    }
  }

  /** A second playback ends the first: starting twice ends exactly the first handle. */
  lemma StartedTwice(s: State, h1: Handle, h2: Handle)
    ensures var first := Started(s, h1);
      var second := Started(first.state, h2);
      && second.state == s.(dispatcher := Some(h2))
      && second.effects == [EndPlayback(h1)]
  {
  }

  /** Draining an idle scheduler only removes messages from the head of the queue, and any
      effect it requests is the speaking of an eligible message. */
  lemma DrainKeepsSuffix(s: State, users: UserTable, present: set<UserId>)
    requires !s.busy
    ensures exists k :: 0 <= k <= |s.queue| && Drain(s, users, present).state.queue == s.queue[k..]
    ensures forall e :: e in Drain(s, users, present).effects ==> e.Speak? && Eligible(users, present, e.msg)
    ensures !Drain(s, users, present).state.busy ==> Drain(s, users, present).state.queue == []
  {
    var r := Drain(s, users, present);
    match FirstEligible(s.queue, users, present)
    case Some(k) =>
      assert r.state.queue == s.queue[k + 1..];
    case None =>
      assert r.state.queue == s.queue[|s.queue|..];
  }

  /** A completion never both starts the next message and leaves the channel: the message it
      starts belongs to a user with text to speech enabled. */
  lemma CompletionSpeaksOrLeaves(s: State, users: UserTable, present: set<UserId>)
    requires !s.busy
    ensures var r := Complete(s, users, present);
      !(LeaveVoice in r.effects && exists m :: Speak(m) in r.effects)
  {
    var d := Drain(s, users, present);
    DrainKeepsSuffix(s, users, present);
    var r := Complete(s, users, present);
    if m :| Speak(m) in r.effects {
      assert Speak(m) in d.effects;
      assert users[m.author].ttsEnabled;
      assert !ShouldLeave(users);
      assert LeaveVoice !in d.effects;
    }
  }

  /** Clearing and then receiving the end of the cancelled playback leaves the scheduler idle,
      empty and without a dispatcher: nothing that was queued is played. */
  lemma ClearThenEnded(s: State, users: UserTable, present: set<UserId>)
    ensures Ended(Clear(s).state, users, present).state == Initial
    ensures forall e :: e in Ended(Clear(s).state, users, present).effects ==> e == LeaveVoice
  {
  }

  /** Stopping keeps the queue: the end of the stopped playback starts the first eligible
      queued message, and the rest of the queue stays in order. */
  lemma StopThenEnded(s: State, users: UserTable, present: set<UserId>)
    requires FirstEligible(s.queue, users, present).Some?
    ensures var k := FirstEligible(s.queue, users, present).value;
      var r := Ended(Stop(s).state, users, present);
      && r.state == State(s.queue[k + 1..], true, None)
      && r.effects == [Speak(s.queue[k])]
  {
    var k := FirstEligible(s.queue, users, present).value;
    assert users[s.queue[k].author].ttsEnabled;
    assert !ShouldLeave(users);
  }
}

=== FILE: text.dfy ===
/** String helpers mirroring the JavaScript string methods the bot relies on:
    `startsWith`-style prefix tests, `includes` and `split` with a string separator. */
module Text {

  /** True iff `p` is a prefix of `s`. */
  function IsPrefix(p: string, s: string): bool
  {
    |p| <= |s| && s[..|p|] == p
  }

  /** True iff `sub` occurs somewhere in `s` (JavaScript `s.includes(sub)`). */
  ghost predicate OccursAt(s: string, sub: string, i: int)
  {
    0 <= i && i + |sub| <= |s| && s[i..i + |sub|] == sub
  }

  function Contains(s: string, sub: string): (r: bool)
    ensures r <==> exists i :: OccursAt(s, sub, i)
    decreases |s|
  {
    if IsPrefix(sub, s) then
      assert OccursAt(s, sub, 0);
      true
    else if |s| == 0 then
      assert forall i :: !OccursAt(s, sub, i);
      false
    else
      var rest := Contains(s[1..], sub);
      assert forall i :: OccursAt(s[1..], sub, i) <==> OccursAt(s, sub, i + 1) by {
        forall i ensures OccursAt(s[1..], sub, i) <==> OccursAt(s, sub, i + 1) {
          if 0 <= i && i + |sub| <= |s| - 1 {
            assert s[1..][i..i + |sub|] == s[i + 1..i + 1 + |sub|];
          }
        }
      }
      assert !OccursAt(s, sub, 0);
      assert forall i :: OccursAt(s, sub, i) ==> i == 0 || OccursAt(s[1..], sub, i - 1);
      rest
  }

  /** JavaScript `s.split(sep)` for a non-empty string separator: the pieces between the
      non-overlapping occurrences of `sep`, found left to right. */
  function Split(s: string, sep: string): (r: seq<string>)
    requires |sep| > 0
    ensures |r| >= 1
    decreases |s|
  {
    if |s| < |sep| then [s]
    else if s[..|sep|] == sep then [""] + Split(s[|sep|..], sep)
    else
      var rest := Split(s[1..], sep);
      [[s[0]] + rest[0]] + rest[1..]
  }

  /** JavaScript `parts.join(sep)`. */
  function Join(parts: seq<string>, sep: string): string
  {
    if |parts| == 0 then ""
    else if |parts| == 1 then parts[0]
    else parts[0] + sep + Join(parts[1..], sep)
  }

  /** Splitting and joining back with the same separator gives the original string. */
  lemma {:induction false} JoinSplit(s: string, sep: string)
    requires |sep| > 0
    ensures Join(Split(s, sep), sep) == s
    decreases |s|
  {
    if |s| < |sep| {
    } else if s[..|sep|] == sep {
      var tail := Split(s[|sep|..], sep);
      JoinSplit(s[|sep|..], sep);
      assert Split(s, sep) == [""] + tail;
      JoinPrepend("", tail, sep);
      assert s == sep + s[|sep|..];
    } else {
      var rest := Split(s[1..], sep);
      JoinSplit(s[1..], sep);
      assert Split(s, sep) == [[s[0]] + rest[0]] + rest[1..];
      JoinExtendHead(s[0], rest, sep);
      assert [s[0]] + s[1..] == s;
    }
  }

  lemma JoinPrepend(a: string, tail: seq<string>, sep: string)
    requires |tail| >= 1
    ensures Join([a] + tail, sep) == a + sep + Join(tail, sep)
  {
    assert ([a] + tail)[1..] == tail;
  }

  /** Prefixing a character to the first piece prefixes it to the joined string. */
  lemma JoinExtendHead(c: char, rest: seq<string>, sep: string)
    requires |rest| >= 1
    ensures Join([[c] + rest[0]] + rest[1..], sep) == [c] + Join(rest, sep)
  {
    var r := [[c] + rest[0]] + rest[1..];
    if |rest| > 1 {
      assert r[1..] == rest[1..];
      assert Join(r, sep) == [c] + rest[0] + sep + Join(rest[1..], sep);
    }
  }

  /** A string in which the separator does not occur is a single piece. */
  lemma {:induction false} SplitWithoutSeparator(s: string, sep: string)
    requires |sep| > 0
    requires !Contains(s, sep)
    ensures Split(s, sep) == [s]
    decreases |s|
  {
    if |s| < |sep| {
    } else {
      assert !OccursAt(s, sep, 0);
      assert s[..|sep|] != sep;
      forall i ensures !OccursAt(s[1..], sep, i) {
        if 0 <= i && i + |sep| <= |s| - 1 {
          assert s[1..][i..i + |sep|] == s[i + 1..i + 1 + |sep|];
          assert !OccursAt(s, sep, i + 1);
        }
      }
      SplitWithoutSeparator(s[1..], sep);
      assert [s[0]] + s[1..] == s;
    }
  }

  /** With a one-character separator, no piece of a split contains the separator. */
  lemma {:induction false} SplitPiecesAvoidChar(s: string, c: char)
    ensures forall i :: 0 <= i < |Split(s, [c])| ==> c !in Split(s, [c])[i]
    decreases |s|
  {
    if |s| < 1 {
    } else if s[..1] == [c] {
      SplitPiecesAvoidChar(s[1..], c);
      assert Split(s, [c]) == [""] + Split(s[1..], [c]);
    } else {
      SplitPiecesAvoidChar(s[1..], c);
      var rest := Split(s[1..], [c]);
      assert s[0] != c by { assert s[..1] == [s[0]]; }
      assert Split(s, [c]) == [[s[0]] + rest[0]] + rest[1..];
    }
  }

  /** With a one-character separator, joining pieces that avoid it and splitting again
      recovers the pieces exactly. */
  lemma {:induction false} SplitJoinChar(parts: seq<string>, c: char)
    requires |parts| >= 1
    requires forall i :: 0 <= i < |parts| ==> c !in parts[i]
    ensures Split(Join(parts, [c]), [c]) == parts
    decreases |parts|, |parts[0]|
  {
    var s := Join(parts, [c]);
    if parts[0] == "" {
      if |parts| == 1 {
        assert s == "";
      } else {
        SplitJoinChar(parts[1..], c);
        assert s == [c] + Join(parts[1..], [c]);
        assert s[..1] == [c];
        assert s[1..] == Join(parts[1..], [c]);
        assert parts == [""] + parts[1..];
      }
    } else {
      var p0 := parts[0];
      var shorter := [p0[1..]] + parts[1..];
      assert forall i :: 0 <= i < |shorter| ==> c !in shorter[i] by {
        forall i | 0 <= i < |shorter| ensures c !in shorter[i] {
          if i == 0 {
            assert forall x :: x in p0[1..] ==> x in p0;
          } else {
            assert shorter[i] == parts[i];
          }
        }
      }
      SplitJoinChar(shorter, c);
      assert shorter[1..] == parts[1..];
      if |parts| == 1 {
        assert s == p0;
        assert Join(shorter, [c]) == p0[1..];
      } else {
        assert s == p0 + [c] + Join(parts[1..], [c]);
        assert Join(shorter, [c]) == p0[1..] + [c] + Join(parts[1..], [c]);
      }
      assert s == [p0[0]] + Join(shorter, [c]);
      assert s[1..] == Join(shorter, [c]);
      assert s[..1] != [c] by { assert s[0] == p0[0]; assert p0[0] in p0; }
      assert |s| >= 1;
      assert [p0[0]] + p0[1..] == p0;
      assert [p0] + parts[1..] == parts;
    }
  }

  /** A split that yields a single piece means the separator does not occur. */
  lemma {:induction false} SinglePieceWithoutSeparator(s: string, sep: string)
    requires |sep| > 0
    requires |Split(s, sep)| == 1
    ensures !Contains(s, sep)
    decreases |s|
  {
    if |s| < |sep| {
      assert forall i :: !OccursAt(s, sep, i);
    } else {
      assert s[..|sep|] != sep;
      var rest := Split(s[1..], sep);
      assert Split(s, sep) == [[s[0]] + rest[0]] + rest[1..];
      SinglePieceWithoutSeparator(s[1..], sep);
      forall i ensures !OccursAt(s, sep, i) {
        if 1 <= i && i + |sep| <= |s| {
          assert s[1..][i - 1..i - 1 + |sep|] == s[i..i + |sep|];
          assert !OccursAt(s[1..], sep, i - 1);
        }
      }
    }
  }

  /** With a one-character separator, the first piece is everything before its first
      occurrence. */
  lemma {:induction false} SplitFirstPiece(w: string, c: char, rest: string)
    requires c !in w
    ensures Split(w + [c] + rest, [c])[0] == w
    decreases |w|
  {
    var s := w + [c] + rest;
    if |w| == 0 {
      assert s == [c] + rest;
      assert s[..1] == [c];
    } else {
      assert s[..1] != [c] by { assert s[0] == w[0]; assert w[0] in w; }
      assert s[1..] == w[1..] + [c] + rest;
      assert c !in w[1..] by { assert forall x :: x in w[1..] ==> x in w; }
      SplitFirstPiece(w[1..], c, rest);
      assert [w[0]] + w[1..] == w;
    }
  }

  /** The first piece of a split is the text before the first occurrence of the separator,
      provided the separator's first character does not recur inside it (so no occurrence
      can straddle the boundary). */
  lemma {:induction false} SplitBeforeSeparator(w: string, sep: string, rest: string)
    requires |sep| > 0
    requires forall k :: 0 < k < |sep| ==> sep[k] != sep[0]
    requires !Contains(w, sep)
    ensures Split(w + sep + rest, sep)[0] == w
    decreases |w|
  {
    var s := w + sep + rest;
    if |w| == 0 {
      assert s == sep + rest;
      assert s[..|sep|] == sep;
    } else {
      assert s[..|sep|] != sep by {
        if |w| >= |sep| {
          assert s[..|sep|] == w[0..|sep|];
          assert !OccursAt(w, sep, 0);
        } else {
          assert s[|w|] == sep[0];
          assert s[..|sep|][|w|] == sep[0];
          assert sep[|w|] != sep[0];
        }
      }
      assert s[1..] == w[1..] + sep + rest;
      forall i ensures !OccursAt(w[1..], sep, i) {
        if 0 <= i && i + |sep| <= |w| - 1 {
          assert w[1..][i..i + |sep|] == w[i + 1..i + 1 + |sep|];
          assert !OccursAt(w, sep, i + 1);
        }
      }
      SplitBeforeSeparator(w[1..], sep, rest);
      assert [w[0]] + w[1..] == w;
    }
  }

  /** A split yields more than one piece exactly when the separator occurs. */
  lemma SplitCountsOccurrence(s: string, sep: string)
    requires |sep| > 0
    ensures |Split(s, sep)| > 1 <==> Contains(s, sep)
  {
    if |Split(s, sep)| == 1 {
      SinglePieceWithoutSeparator(s, sep);
    }
    if !Contains(s, sep) {
      SplitWithoutSeparator(s, sep);
    }
  }
}

=== FILE: users.dfy ===
/** The `Users` table (id, language, voice, tts_enabled) as an immutable map, and the
    operations of the bot that read or update it: `getOrCreateUser`, `toggleUserTtsEnabled`,
    `randomizeLanguage`, the `!voice <name>` update and the `maybeLeaveVoice` decision. */
module Users {
  import opened Maybe
  import opened Voices

  type UserId = string

  /** One row of the `Users` table. `language` is absent when the chosen voice listed no
      language code. */
  datatype User = User(id: UserId, language: Option<string>, voice: string, ttsEnabled: bool)

  /** The table keyed by its primary key `id`. */
  type UserTable = map<UserId, User>

  /** Every row is stored under its own id. */
  ghost predicate WellKeyed(t: UserTable)
  {
    forall id :: id in t ==> t[id].id == id
  }

  /** `t2` differs from `t` at most in the row of `id`, which it holds. */
  ghost predicate OnlyRowChanged(t: UserTable, t2: UserTable, id: UserId)
  {
    && t2.Keys == t.Keys + {id}
    && forall u :: u in t && u != id ==> t2[u] == t[u]
  }

  /** Voices a new user is given one of: American English WaveNet voices. */
  const NewUserOptions := VoiceOptions(Some("en-US"), Some("Wavenet"))

  /** Voices the `!random` command draws from: any WaveNet voice. */
  const RandomOptions := VoiceOptions(None, Some("Wavenet"))

  /** `voices[Math.floor(Math.random() * voices.length)]`, with the random draw supplied by the
      caller as `pick`; every voice of the list can be drawn. */
  function Pick(vs: seq<Voice>, pick: nat): (v: Voice)
    requires |vs| > 0
    ensures v in vs
    ensures pick < |vs| ==> v == vs[pick]
  {
    vs[pick % |vs|]
  }

  /** The stored voice of a user becomes `v`, with `v`'s first language code. */
  function WithVoice(u: User, v: Voice): User
  {
    u.(language := PrimaryLanguage(v), voice := v.name)
  }

  /** A random voice among those satisfying `opts`, or nothing when none does (the source
      then fails on `randomVoice.languageCodes`). */
  function Draw(catalog: seq<Voice>, opts: VoiceOptions, pick: nat): (r: Option<Voice>)
    ensures r.Some? <==> exists v :: v in catalog && Matches(v, opts)
    ensures r.Some? ==> r.value in catalog && Matches(r.value, opts)
  {
    var candidates := ValidVoices(catalog, opts);
    ValidVoicesSpec(catalog, opts);
    if |candidates| == 0 then None else Some(Pick(candidates, pick))
  }

  datatype Lookup = Lookup(table: UserTable, user: User)

  /** `getOrCreateUser`: the existing row, or a new row with a random American English WaveNet
      voice and text to speech disabled. When no such voice exists the source fails on
      `randomVoice.languageCodes` and never calls back: `None`. */
  function GetOrCreate(t: UserTable, id: UserId, catalog: seq<Voice>, pick: nat): (r: Option<Lookup>)
    ensures id in t ==> r == Some(Lookup(t, t[id]))
    ensures id !in t ==> (r.Some? <==> exists v :: v in catalog && Matches(v, NewUserOptions))
    ensures r.Some? ==> r.value.table == t[id := r.value.user]
    ensures r.Some? && id !in t ==>
      && r.value.user.id == id
      && !r.value.user.ttsEnabled
      && r.value.user.language.Some?
      && exists v :: v in catalog && Matches(v, NewUserOptions) && r.value.user == User(id, PrimaryLanguage(v), v.name, false)
    ensures r.Some? && WellKeyed(t) ==> WellKeyed(r.value.table)
  {
    if id in t then
      Some(Lookup(t, t[id]))
    else
      match Draw(catalog, NewUserOptions, pick)
      case None => None
      case Some(v) =>
        var u := User(id, PrimaryLanguage(v), v.name, false);
        Some(Lookup(t[id := u], u))
  }

  datatype Toggled = Toggled(table: UserTable, enabled: bool)

  /** `toggleUserTtsEnabled`: look the user up (creating the row if needed) and store the
      negation of its flag; the callback receives the new flag. */
  function ToggleTts(t: UserTable, id: UserId, catalog: seq<Voice>, pick: nat): (r: Option<Toggled>)
    ensures id in t ==> r.Some? && r.value.enabled == !t[id].ttsEnabled
    ensures id !in t ==> (r.Some? <==> exists v :: v in catalog && Matches(v, NewUserOptions))
    ensures id !in t && r.Some? ==> r.value.enabled
    ensures r.Some? ==> id in r.value.table && r.value.table[id].ttsEnabled == r.value.enabled
    ensures r.Some? ==> OnlyRowChanged(t, r.value.table, id)
    ensures r.Some? && id in t ==> r.value.table[id] == t[id].(ttsEnabled := r.value.enabled)
    ensures r.Some? && id !in t ==>
      exists v :: v in catalog && Matches(v, NewUserOptions)
                  && r.value.table[id] == User(id, PrimaryLanguage(v), v.name, true)
    ensures r.Some? && WellKeyed(t) ==> WellKeyed(r.value.table)
  {
    match GetOrCreate(t, id, catalog, pick)
    case None => None
    case Some(found) =>
      var enabled := !found.user.ttsEnabled;
      Some(Toggled(found.table[id := found.user.(ttsEnabled := enabled)], enabled))
  }

  /** Toggling an existing user twice restores the table. */
  lemma ToggleTwice(t: UserTable, id: UserId, catalog: seq<Voice>, pick1: nat, pick2: nat)
    requires id in t
    ensures ToggleTts(t, id, catalog, pick1).Some?
    ensures ToggleTts(ToggleTts(t, id, catalog, pick1).value.table, id, catalog, pick2)
            == Some(Toggled(t, t[id].ttsEnabled))
  {
    var once := ToggleTts(t, id, catalog, pick1).value.table;
    assert once == t[id := t[id].(ttsEnabled := !t[id].ttsEnabled)];
    var twice := ToggleTts(once, id, catalog, pick2).value.table;
    assert twice == once[id := t[id]];
    assert twice == t;
  }

  datatype Randomized = Randomized(table: UserTable, chosen: Option<Voice>)

  /** `randomizeLanguage` (the `!random` command): look the user up (creating the row if
      needed), then store a random voice among those satisfying `opts`. Creation can succeed
      while the second draw fails on an empty list, so the created row may remain without a
      new voice. */
  function Randomize(t: UserTable, id: UserId, catalog: seq<Voice>, opts: VoiceOptions,
                     createPick: nat, pick: nat): (r: Randomized)
    ensures r.chosen.Some? ==> r.chosen.value in catalog && Matches(r.chosen.value, opts)
    ensures r.chosen.Some? ==>
      && id in r.table
      && r.table[id].voice == r.chosen.value.name
      && r.table[id].language == PrimaryLanguage(r.chosen.value)
    ensures id in t ==> (r.chosen.Some? <==> exists v :: v in catalog && Matches(v, opts))
    ensures id in t && r.chosen.None? ==> r.table == t
    ensures r.chosen.Some? ==> r.table[id].ttsEnabled == (id in t && t[id].ttsEnabled)
    ensures id !in t && r.chosen.Some? ==> r.table[id].id == id
    ensures id !in t ==>
      (r.chosen.Some? <==> (exists v :: v in catalog && Matches(v, NewUserOptions))
                           && exists v :: v in catalog && Matches(v, opts))
  {
    match GetOrCreate(t, id, catalog, createPick)
    case None => Randomized(t, None)
    case Some(found) =>
      match Draw(catalog, opts, pick)
      case None => Randomized(found.table, None)
      case Some(v) => Randomized(t[id := WithVoice(found.user, v)], Some(v))
  }

  /** `randomizeLanguage` touches no row but the caller's. */
  lemma RandomizeFrame(t: UserTable, id: UserId, catalog: seq<Voice>, opts: VoiceOptions,
                       createPick: nat, pick: nat)
    ensures var r := Randomize(t, id, catalog, opts, createPick, pick);
      r.table == t || OnlyRowChanged(t, r.table, id)
  {
    match GetOrCreate(t, id, catalog, createPick)
    case None =>
    case Some(found) =>
      match Draw(catalog, opts, pick)
      case None =>
        StoreRow(t, id, found.user);
      case Some(v) =>
        StoreRow(t, id, WithVoice(found.user, v));
  }

  /** `randomizeLanguage` keeps the table keyed by id. */
  lemma RandomizeWellKeyed(t: UserTable, id: UserId, catalog: seq<Voice>, opts: VoiceOptions,
                           createPick: nat, pick: nat)
    requires WellKeyed(t)
    ensures WellKeyed(Randomize(t, id, catalog, opts, createPick, pick).table)
  {
    match GetOrCreate(t, id, catalog, createPick)
    case None =>
    case Some(found) =>
      assert found.user.id == id;
      match Draw(catalog, opts, pick)
      case None =>
      case Some(v) =>
        StoreRow(t, id, WithVoice(found.user, v));
  }

  /** An existing row keeps everything but its voice and language. */
  lemma RandomizeKeepsRow(t: UserTable, id: UserId, catalog: seq<Voice>, opts: VoiceOptions,
                          createPick: nat, pick: nat)
    requires id in t
    ensures var r := Randomize(t, id, catalog, opts, createPick, pick);
      r.chosen.Some? ==> r.table == t[id := WithVoice(t[id], r.chosen.value)]
  {
    assert GetOrCreate(t, id, catalog, createPick) == Some(Lookup(t, t[id]));
  }

  /** Storing a row under `id` changes only that row, and keeps the table keyed by id when the
      row carries its own key. */
  lemma StoreRow(t: UserTable, id: UserId, u: User)
    ensures OnlyRowChanged(t, t[id := u], id)
    ensures WellKeyed(t) && u.id == id ==> WellKeyed(t[id := u])
  {
  }

  datatype Named = Named(table: UserTable, found: Option<Voice>)

  /** The `!voice <name>` command: the first catalog voice named exactly `name` becomes the
      user's voice. The update is a plain `UPDATE ... WHERE id = ?` without a prior
      get-or-create, so a user with no row stays without one. */
  function SetVoiceNamed(t: UserTable, id: UserId, catalog: seq<Voice>, name: string): (r: Named)
    ensures r.found.Some? <==> exists v :: v in catalog && v.name == name
    ensures r.found.Some? ==> r.found.value in catalog && r.found.value.name == name
    ensures r.found.Some? ==>
      FirstNamed(catalog, name).Some? && r.found.value == catalog[FirstNamed(catalog, name).value]
    ensures id in t && r.found.Some? ==> r.table == t[id := WithVoice(t[id], r.found.value)]
    ensures id !in t || r.found.None? ==> r.table == t
    ensures WellKeyed(t) ==> WellKeyed(r.table)
  {
    var all := ValidVoices(catalog, NoOptions);
    ValidVoicesSpec(catalog, NoOptions);
    match FirstNamed(all, name)
    case None => Named(t, None)
    case Some(k) =>
      var v := all[k];
      Named(if id in t then t[id := WithVoice(t[id], v)] else t, Some(v))
  }

  /** The ids of the rows with text to speech enabled
      (`SELECT * FROM Users WHERE tts_enabled = true`). */
  function EnabledUsers(t: UserTable): set<UserId>
  {
    set id | id in t && t[id].ttsEnabled
  }

  /** `maybeLeaveVoice`: leave when the query returns no row, i.e. when nobody in the whole
      table, in any channel, has text to speech enabled. */
  function ShouldLeave(t: UserTable): (r: bool)
    ensures r <==> forall id :: id in t ==> !t[id].ttsEnabled
  {
    var enabled := EnabledUsers(t);
    if |enabled| == 0 then
      assert forall id :: id in t && t[id].ttsEnabled ==> id in enabled;
      true
    else
      assert enabled != {};
      false
  }

  /** Whoever turns text to speech on keeps the bot in voice; whoever turns off the last
      enabled flag makes it leave. */
  lemma ToggleDecidesLeave(t: UserTable, id: UserId, catalog: seq<Voice>, pick: nat)
    requires ToggleTts(t, id, catalog, pick).Some?
    ensures ToggleTts(t, id, catalog, pick).value.enabled ==> !ShouldLeave(ToggleTts(t, id, catalog, pick).value.table)
    ensures EnabledUsers(t) == {id} && id in t ==> ShouldLeave(ToggleTts(t, id, catalog, pick).value.table)
  {
    var r := ToggleTts(t, id, catalog, pick).value;
    if EnabledUsers(t) == {id} && id in t {
      forall u | u in r.table ensures !r.table[u].ttsEnabled {
        if u != id {
          assert u !in EnabledUsers(t);
        }
      }
    }
  }
}

=== FILE: voices.dfy ===
/** The voice catalog as returned by the speech service's `listVoices`, and the two ways the
    bot selects from it: `getValidVoices` (filter by language code and by a substring of the
    name) and the `!voice <name>` exact-name lookup. */
module Voices {
  import opened Maybe
  import Text

  datatype Voice = Voice(name: string, languageCodes: seq<string>)

  /** The optional `{languageCode, type}` argument of `getValidVoices`. */
  datatype VoiceOptions = VoiceOptions(languageCode: Option<string>, voiceType: Option<string>)

  const NoOptions := VoiceOptions(None, None)

  /** JavaScript truthiness of an optional string: absent and "" both count as not given. */
  predicate Given(o: Option<string>)
  {
    o.Some? && o.value != ""
  }

  /** `v.languageCodes.indexOf(code) > -1` */
  predicate SpeaksLanguage(v: Voice, code: string)
  {
    code in v.languageCodes
  }

  /** `v.name.includes(t)` */
  predicate HasType(v: Voice, t: string)
  {
    Text.Contains(v.name, t)
  }

  /** The language code a chosen voice is stored with: its first code, or nothing
      (`undefined`, stored as NULL) when it lists none. */
  function PrimaryLanguage(v: Voice): (r: Option<string>)
    ensures r.Some? <==> |v.languageCodes| > 0
    ensures r.Some? ==> SpeaksLanguage(v, r.value)
  {
    if |v.languageCodes| > 0 then Some(v.languageCodes[0]) else None
  }

  /** The voices speaking `code`, in catalog order. */
  function KeepLanguage(vs: seq<Voice>, code: string): seq<Voice>
  {
    if |vs| == 0 then []
    else (if SpeaksLanguage(vs[0], code) then [vs[0]] else []) + KeepLanguage(vs[1..], code)
  }

  /** The voices whose name contains `t`, in catalog order. */
  function KeepType(vs: seq<Voice>, t: string): seq<Voice>
  {
    if |vs| == 0 then []
    else (if HasType(vs[0], t) then [vs[0]] else []) + KeepType(vs[1..], t)
  }

  /** `getValidVoices`: first the language filter (when a code is given), then the type filter
      (when a type is given) applied to the output of the first. */
  function ValidVoices(vs: seq<Voice>, opts: VoiceOptions): seq<Voice>
  {
    var byLanguage := if Given(opts.languageCode) then KeepLanguage(vs, opts.languageCode.value) else vs;
    if Given(opts.voiceType) then KeepType(byLanguage, opts.voiceType.value) else byLanguage
  }

  /** Reference definition: what a voice must satisfy to survive the options. */
  predicate Matches(v: Voice, opts: VoiceOptions)
  {
    && (Given(opts.languageCode) ==> SpeaksLanguage(v, opts.languageCode.value))
    && (Given(opts.voiceType) ==> HasType(v, opts.voiceType.value))
  }

  /** Reference definition: one pass keeping the matching voices. */
  function Matching(vs: seq<Voice>, opts: VoiceOptions): seq<Voice>
  {
    if |vs| == 0 then []
    else (if Matches(vs[0], opts) then [vs[0]] else []) + Matching(vs[1..], opts)
  }

  /** `a` is obtained from `b` by deleting elements, keeping the order of the rest. */
  ghost predicate Subsequence(a: seq<Voice>, b: seq<Voice>)
    decreases |b|
  {
    if |a| == 0 then true
    else if |b| == 0 then false
    else if a[0] == b[0] then Subsequence(a[1..], b[1..])
    else Subsequence(a, b[1..])
  }

  lemma {:induction false} KeepLanguageIsMatching(vs: seq<Voice>, code: string)
    requires code != ""
    ensures KeepLanguage(vs, code) == Matching(vs, VoiceOptions(Some(code), None))
    decreases |vs|
  {
    if |vs| > 0 {
      KeepLanguageIsMatching(vs[1..], code);
    }
  }

  /** Filtering by type after filtering by the options equals filtering once by the options
      with the type added. */
  lemma {:induction false} KeepTypeAfterMatching(vs: seq<Voice>, opts: VoiceOptions, t: string)
    requires t != ""
    requires !Given(opts.voiceType)
    ensures KeepType(Matching(vs, opts), t) == Matching(vs, opts.(voiceType := Some(t)))
    decreases |vs|
  {
    if |vs| > 0 {
      KeepTypeAfterMatching(vs[1..], opts, t);
      var head := if Matches(vs[0], opts) then [vs[0]] else [];
      KeepTypeAppend(head, Matching(vs[1..], opts), t);
      var opts' := opts.(voiceType := Some(t));
      assert Matches(vs[0], opts') <==> Matches(vs[0], opts) && HasType(vs[0], t);
      assert Matching(vs, opts) == head + Matching(vs[1..], opts);
      if Matches(vs[0], opts) {
        assert KeepType(head, t) == (if HasType(vs[0], t) then [vs[0]] else []) + KeepType([], t);
      } else {
        assert KeepType(head, t) == [];
      }
      assert Matching(vs, opts') == (if Matches(vs[0], opts') then [vs[0]] else []) + Matching(vs[1..], opts');
    }
  }

  lemma {:induction false} KeepTypeAppend(a: seq<Voice>, b: seq<Voice>, t: string)
    ensures KeepType(a + b, t) == KeepType(a, t) + KeepType(b, t)
    decreases |a|
  {
    if |a| > 0 {
      assert (a + b)[1..] == a[1..] + b;
      KeepTypeAppend(a[1..], b, t);
    } else {
      assert a + b == b;
    }
  }

  lemma {:induction false} MatchingNoOptions(vs: seq<Voice>)
    ensures Matching(vs, NoOptions) == vs
    decreases |vs|
  {
    if |vs| > 0 {
      MatchingNoOptions(vs[1..]);
      assert [vs[0]] + vs[1..] == vs;
    }
  }

  /** The two-stage filter of the source keeps exactly the voices satisfying the reference
      predicate, in catalog order. */
  lemma ValidVoicesIsMatching(vs: seq<Voice>, opts: VoiceOptions)
    ensures ValidVoices(vs, opts) == Matching(vs, opts)
  {
    var noType := opts.(voiceType := None);
    if Given(opts.languageCode) {
      KeepLanguageIsMatching(vs, opts.languageCode.value);
      assert Matching(vs, VoiceOptions(opts.languageCode, None)) == Matching(vs, noType) by {
        MatchingSameFilter(vs, VoiceOptions(opts.languageCode, None), noType);
      }
    } else {
      MatchingNoOptions(vs);
      MatchingSameFilter(vs, NoOptions, noType);
    }
    if Given(opts.voiceType) {
      KeepTypeAfterMatching(vs, noType, opts.voiceType.value);
      assert noType.(voiceType := Some(opts.voiceType.value)) == opts;
    } else {
      MatchingSameFilter(vs, noType, opts);
    }
  }

  /** Options that accept the same voices filter identically. */
  lemma {:induction false} MatchingSameFilter(vs: seq<Voice>, o1: VoiceOptions, o2: VoiceOptions)
    requires forall v :: Matches(v, o1) <==> Matches(v, o2)
    ensures Matching(vs, o1) == Matching(vs, o2)
    decreases |vs|
  {
    if |vs| > 0 {
      MatchingSameFilter(vs[1..], o1, o2);
    }
  }

  lemma {:induction false} MatchingSound(vs: seq<Voice>, opts: VoiceOptions)
    ensures forall v :: v in Matching(vs, opts) <==> v in vs && Matches(v, opts)
    ensures Subsequence(Matching(vs, opts), vs)
    decreases |vs|
  {
    if |vs| > 0 {
      MatchingSound(vs[1..], opts);
      var rest := Matching(vs[1..], opts);
      if Matches(vs[0], opts) {
        assert ([vs[0]] + rest)[1..] == rest;
      } else {
        assert [] + rest == rest;
        SubsequenceDropHead(rest, vs);
      }
      assert vs == [vs[0]] + vs[1..];
    }
  }

  lemma {:induction false} SubsequenceDropHead(a: seq<Voice>, b: seq<Voice>)
    requires |b| > 0
    requires Subsequence(a, b[1..])
    ensures Subsequence(a, b)
    decreases |b|, |a|
  {
    if |a| > 0 && a[0] == b[0] {
      SubsequenceTail(a, b[1..]);
    }
  }

  lemma {:induction false} SubsequenceTail(a: seq<Voice>, b: seq<Voice>)
    requires |a| > 0
    requires Subsequence(a, b)
    ensures Subsequence(a[1..], b)
    decreases |b|, |a|
  {
    if a[0] == b[0] {
      if |a| > 1 {
        SubsequenceDropHead(a[1..], b);
      }
    } else {
      SubsequenceTail(a, b[1..]);
      SubsequenceDropHead(a[1..], b);
    }
  }

  /** What `getValidVoices` hands to its callback: with no options the catalog unchanged;
      otherwise an order-preserving subsequence holding exactly the voices that speak the
      given language and whose name contains the given type. */
  lemma ValidVoicesSpec(vs: seq<Voice>, opts: VoiceOptions)
    ensures !Given(opts.languageCode) && !Given(opts.voiceType) ==> ValidVoices(vs, opts) == vs
    ensures forall v :: v in ValidVoices(vs, opts) <==> v in vs && Matches(v, opts)
    ensures Subsequence(ValidVoices(vs, opts), vs)
  {
    ValidVoicesIsMatching(vs, opts);
    MatchingSound(vs, opts);
  }

  /** Filtering twice with the same options gives the same result as filtering once. */
  lemma FilterIdempotent(vs: seq<Voice>, opts: VoiceOptions)
    ensures ValidVoices(ValidVoices(vs, opts), opts) == ValidVoices(vs, opts)
  {
    var once := ValidVoices(vs, opts);
    ValidVoicesIsMatching(vs, opts);
    ValidVoicesIsMatching(once, opts);
    MatchingAllMatch(vs, opts);
  }

  lemma {:induction false} MatchingAllMatch(vs: seq<Voice>, opts: VoiceOptions)
    ensures Matching(Matching(vs, opts), opts) == Matching(vs, opts)
    decreases |vs|
  {
    if |vs| > 0 {
      MatchingAllMatch(vs[1..], opts);
      var rest := Matching(vs[1..], opts);
      if Matches(vs[0], opts) {
        assert ([vs[0]] + rest)[1..] == rest;
      } else {
        assert [] + rest == rest;
      }
    }
  }

  /** The first index whose voice is named exactly `name`. */
  function FirstNamed(vs: seq<Voice>, name: string): (r: Option<nat>)
    ensures r.Some? ==> r.value < |vs| && vs[r.value].name == name
    ensures r.Some? ==> forall j :: 0 <= j < r.value ==> vs[j].name != name
    ensures r.None? ==> forall j :: 0 <= j < |vs| ==> vs[j].name != name
    decreases |vs|
  {
    if |vs| == 0 then None
    else if vs[0].name == name then Some(0)
    else match FirstNamed(vs[1..], name)
      case None => None
      case Some(k) => Some(k + 1)
  }

  /** The `for` loop of the `!voice <name>` command: scan the catalog and stop at the first
      voice whose name equals the argument. */
  method ScanForName(vs: seq<Voice>, name: string) returns (r: Option<nat>)
    ensures r == FirstNamed(vs, name)
  {
    var i := 0;
    while i < |vs|
      invariant 0 <= i <= |vs|
      invariant forall j :: 0 <= j < i ==> vs[j].name != name
    {
      if vs[i].name == name {
        FirstNamedUnique(vs, name, i);
        return Some(i);
      }
      i := i + 1;
    }
    FirstNamedUnique(vs, name, -1);
    return None;
  }

  /** `FirstNamed` is determined by its contract: the first matching index, or none. */
  lemma FirstNamedUnique(vs: seq<Voice>, name: string, k: int)
    requires -1 <= k < |vs|
    requires k >= 0 ==> vs[k].name == name
    requires forall j :: 0 <= j < (if k >= 0 then k else |vs|) ==> vs[j].name != name
    ensures FirstNamed(vs, name) == (if k >= 0 then Some(k) else None)
  {
    var r := FirstNamed(vs, name);
    if r.Some? && k >= 0 {
      assert !(r.value < k) && !(k < r.value);
    }
  }
}
